=== FILE: README.md ===
# Places search and scrap core, modelled in Dafny

This project models the place controller of a location-discovery backend. Users search places
such as cafes, shops and hospitals by keyword, label, position or id list. They may also "scrap"
(bookmark) a place; a scrap is recorded both on the user (`user.places`) and on the place
(`place.scraps`). The project also models the schema validation of the place and dog documents.

Everything is pure: documents are immutable datatypes, and each handler is a function that
returns either the new document(s) or the error it raises (`Results.Result`).

- `results.dfy`: `Option`, `Result`, and the error kinds `BadRequest`, `Invalid`,
  `MalformedQuery`, `Conflict` and `NotFound`.
- `text.dfy`: JavaScript's `\s`, `\d` and line-terminator classes, white-space stripping, and
  ASCII upper-casing.
- `patterns.dfy`: the contact regular expression `^(0\d{1,2}-)?\d{3,4}-\d{4}$` and the birth
  regular expression `^\d{4}.\d{2}.\d{2}$`. Each is written as a hand-coded matcher and proved
  equal to a reference grammar shaped like the regular expression.
- `place.dfy`: the `Place` record, request bodies (`PlacePatch`), the defaults, and the checks
  mongoose runs on save.
- `dog.dfy`: the `Dog` record and its validation. `gender` is uppercased, then checked against
  the enum.
- `normalizer.dfy`: `disassembleKorean` and `createQuery`. The Hangul decomposition
  (`Hangul.disassembleToString`) is a function parameter about which nothing is assumed.
- `place_handlers.dfy`: `create` and `update`.
- `search.dfy`: the search filter, the store contract, and the distance annotation.
- `scrap.dfy`: `scrap` and `unScrap`, including JavaScript `splice` semantics for negative
  indexes.

How the model treats values that the code keeps abstract:
- A `None` field is a key that was not sent.
- A JavaScript-falsy query parameter (absent or `""`) counts as not given.
- `Array.prototype.join` turns an undefined element into `""`.
- An ObjectId in memory is an `IdRef(instance, value)`. `.equals` compares values. `===`
  compares the whole object, so separately loaded copies of the same id are different.

Where the schema file and the controller disagree, the model follows the code:
- `description`, `query` and `scraps` are fields of `Place` in the form
  `src/routes/places-api.ts` uses them, although `src/models/place.ts` does not declare them.
- The label enum CAFE/SHOP/HOSPITAL/OTHER is only the TypeScript type of `label`. The `@prop`
  decorator declares only the default, so nothing enforces the enum at run time.
  `Places.IsDeclaredLabel` states the enum but is not part of `SchemaValid`.
- Mongoose skips the `match` check on an absent or empty value, and the `min`/`max` checks on an
  absent value. Its `required` check rejects the empty string.

Facts about the scrap handlers that the model keeps:
- A repeated scrap raises Conflict. An unscrap without a record raises NotFound.
- unScrap finds the place's entry by object identity (see Findings).

Two further facts about these handlers lie outside the model (see "## Left out"): the two
documents of a scrap or unscrap are saved one after the other, with no transaction and no retry,
and the keyword regular expression carries the `'g'` option.

Parameters stand in for code this model cannot see:
- `d: Disassembler` is the Hangul decomposition.
- `Parsers` holds `JSON.parse` of the `places` and `coordinates` parameters and
  `mongoose.Types.ObjectId`. Each may fail.
- `find: Filter -> seq<Place>` is the store. `StoreContract` assumes its answers are sorted by
  non-increasing rating and satisfy the filter's equality conditions.
- `distance` is `calcDistance`.
- `now` is `new Date()`.

## Model

| member | source | states |
|---|---|---|
| Text.StripWhitespace | src/routes/places-api.ts:32 | the stripped text has no white space, is no longer than the input, is empty for all-white-space input, and leaves white-space-free input unchanged |
| Text.StripConcat | src/routes/places-api.ts:32 | stripping distributes over concatenation |
| Normalizer.DisassembleKorean | src/routes/places-api.ts:31-33 | text free of white space reaches the decomposition unchanged, all-white-space text decomposes as the empty string, and normalising the stripped text again changes nothing |
| Normalizer.CreateQuery | src/routes/places-api.ts:35-39 | the query is the decomposition of name, label, address and description, each stripped of white space, in that order with no separator; a missing field contributes nothing |
| Normalizer.DisassembleIgnoresWhitespace | src/routes/places-api.ts:31-33 | texts that differ only by inserted white space disassemble to the same string |
| Normalizer.QueryIgnoresWhitespaceInName | src/routes/places-api.ts:35-39 | white space inserted into a place's name does not change its query |
| Normalizer.QueryForgetsFieldBoundaries | src/routes/places-api.ts:37 | with no separator, moving text across a field boundary leaves the query unchanged |
| PlaceHandlers.HasRequiredParams | src/routes/places-api.ts:53 | `hasParams` over the four keys name, location, address and contact holds exactly when each of them is sent |
| PlaceHandlers.Create | src/routes/places-api.ts:51-57 | create fails with BadRequest unless name, location, address and contact are sent; otherwise it succeeds exactly when name and address are non-empty, the rating (0 when absent) lies in [0, 5] and the contact is accepted, and any other failure is a validation error listing exactly the failing paths of the new document; on success the stored query is createQuery of the body, every sent field other than the query is stored as sent, label defaults to OTHER, rating to 0, and images, likes and scraps to empty, and the document is schema-valid |
| PlaceHandlers.CreateWithLabelIsConsistent | src/routes/places-api.ts:53-55 | when the body names a label, the created document's query agrees with its stored fields |
| PlaceHandlers.CreateWithoutLabelIsInconsistent | src/routes/places-api.ts:54-55 | for any decomposition that leaves Latin text unchanged, creating "A" at "B" without a label succeeds with label OTHER and query "AB", so the query disagrees with the stored fields |
| PlaceHandlers.CreateConsistent | src/routes/places-api.ts:54-55 | the corrected create succeeds exactly when create does, differs from it only in the query, always stores a query that agrees with the stored fields, and equals create when a label is sent |
| PlaceHandlers.Merge | src/routes/places-api.ts:90 | `Object.assign` gives every sent key the body's value and keeps every other key and the id; an empty body changes nothing |
| PlaceHandlers.Update | src/routes/places-api.ts:88-94 | update succeeds exactly when the merged name and address are non-empty, the merged rating lies in [0, 5] and the merged contact is accepted; on success every sent key takes the body's value and every absent key keeps the old value; the id is kept; the query is recomputed so it agrees with the stored fields; a failure is a validation error listing exactly the failing paths of the merged document |
| PlaceHandlers.UpdateComposes | src/routes/places-api.ts:90 | two updates in a row equal one update with the combined body, the later keys winning |
| PlaceHandlers.UpdateIdempotent | src/routes/places-api.ts:88-92 | sending the same body a second time changes nothing |
| PlaceHandlers.UpdateEmptyBodyIsIdentity | src/routes/places-api.ts:88-92 | an empty body leaves a valid, consistent document exactly as it was |
| Search.ToObjectIds | src/routes/places-api.ts:66-70 | conversion succeeds exactly when every string is an ObjectId, and then yields every id in the same order |
| Search.BuildFilter | src/routes/places-api.ts:58-71 | the filter has a condition exactly for each given parameter: label as exact match, keyword as the disassembled pattern, coordinates with range as location, places as every parsed id in order; nothing given yields the empty filter; an unparseable places list is MalformedQuery |
| Search.SearchPlaces | src/routes/places-api.ts:58-84 | the result is the store's answer for the built filter, in the same order, so sorted by non-increasing rating; it is annotated with distances exactly when coordinates are given; every result has the requested label and is among the requested ids; for a store that never fails, it fails with MalformedQuery exactly when places or coordinates do not parse |
| Search.LabelSearchOnlyReturnsLabel | src/routes/places-api.ts:61-74 | a search by label alone returns the store's answer for the label-only filter, unannotated, and every result carries that label |
| Scraps.FindIndex | src/routes/places-api.ts:115-122 | findIndex returns -1 exactly when no element matches, otherwise the first matching index |
| Scraps.SpliceStart | src/routes/places-api.ts:123 | splice starts at the given index when it lies in the array, counts a negative index back from the end, and clamps to the array: a start past the end becomes the length, one before the beginning becomes 0 |
| Scraps.Splice | src/routes/places-api.ts:123-126 | splice(i, 1) with i in range removes exactly the element at i; splice(-1, 1) removes the last element, or nothing from an empty array; the result's elements come from the input |
| Scraps.PlaceIndex | src/routes/places-api.ts:115-118 | the index is -1 exactly when the place id is not among the user's places, otherwise the first index of the place id |
| Scraps.Scrap | src/routes/places-api.ts:99-112 | scrap fails with Conflict exactly when the place id is already in user.places; otherwise it appends the user's entry with the current time to place.scraps and the place id to user.places, and changes nothing else |
| Scraps.ScrapIndexByObject | src/routes/places-api.ts:119-122 | the entry index is -1 exactly when no entry holds the very same user-id object, otherwise the first index of such an entry |
| Scraps.UnScrap | src/routes/places-api.ts:113-130 | unScrap fails with NotFound exactly when the place id is not in user.places; otherwise it removes the first occurrence of the place id from user.places, and from place.scraps the entry at the object index, or the last entry (or none) when the index is -1 |
| Scraps.ScrapKeepsPlacesUnique | src/routes/places-api.ts:101-108 | a successful scrap keeps every place id at most once in user.places |
| Scraps.ScrapKeepsConsistent | src/routes/places-api.ts:99-111 | a successful scrap keeps user.places free of duplicates and keeps one entry of the user on the place exactly when the user lists the place |
| Scraps.ScrapTwiceConflicts | src/routes/places-api.ts:101-104 | a second scrap of the same place by the same user fails with Conflict |
| Scraps.UnScrapRemovesPlace | src/routes/places-api.ts:115-126 | a successful unScrap keeps user.places free of duplicates and removes the place id from it |
| Scraps.ScrapThenUnScrapRestores | src/routes/places-api.ts:99-130 | scrap followed by unScrap restores both lists, whether the new entry's id is the very same object or an equal one loaded later |
| Scraps.UnScrapRemovesAnotherUsersEntry | src/routes/places-api.ts:119-123 | with entries of users A then B, A's unScrap on freshly loaded documents removes B's entry and keeps A's, breaking the agreement of the two views |
| Scraps.ScrapIndexByValue | src/routes/places-api.ts:119-122 | the index found by value is -1 exactly when the user has no entry, otherwise an index of one of the user's entries |
| Scraps.UnScrapByValue | src/routes/places-api.ts:113-130 | the corrected unScrap fails as unScrap does, updates user.places as unScrap does, removes one of the user's own entries when there is one, and never changes the other users' entries or their order |
| Scraps.UnScrapByValueKeepsConsistent | src/routes/places-api.ts:113-130 | the corrected unScrap keeps the two views in agreement |
| Scraps.ScrapThenUnScrapByValueRestores | src/routes/places-api.ts:99-130 | scrap followed by the corrected unScrap restores both lists |
| Places.Violations | src/models/place.ts:15-26 | name and address are required non-empty, rating must lie in [0, 5], and a non-empty contact must match the contact pattern; no other path is checked (location is also required, but a `Place` record always holds one, so that check cannot fail) |
| Places.Instantiate | src/models/place.ts:21-32 | a created document stores every sent key other than the query as sent, and the given query; label defaults to OTHER and rating to 0, both within their declared ranges; missing images, likes and scraps are empty |
| Patterns.ContactMatcherCorrect | src/models/place.ts:25 | the hand-written matcher accepts exactly the strings of `(0\d{1,2}-)?\d{3,4}-\d{4}` |
| Patterns.ContactLength | src/models/place.ts:25 | every accepted contact is 8 to 13 characters long |
| Patterns.ContactExamples | src/models/place.ts:25 | "02-123-4567" and "1588-1234" are accepted; "123-456" and "12-123-4567" are rejected |
| Patterns.BirthMatcherCorrect | src/models/dog.ts:15 | the hand-written matcher accepts exactly the strings of `\d{4}.\d{2}.\d{2}`, where `.` is one UTF-16 code unit other than a line terminator, so a character outside the Basic Multilingual Plane is not a separator |
| Patterns.BirthSeparators | src/models/dog.ts:15 | a date written with the same separator twice is accepted exactly when the separator is one UTF-16 code unit other than a line terminator |
| Patterns.BirthExamples | src/models/dog.ts:15 | the separators '.', '-' and '/' are accepted, a separator outside the Basic Multilingual Plane is rejected, and the two-digit month and day are not optional |
| Dogs.ParseGender | src/models/dog.ts:13-14 | exactly "M", "F" and "N" denote a gender, and the gender's code is the string |
| Dogs.DogViolations | src/models/dog.ts:7-18 | name and breed are required non-empty, gender is required and one of M/F/N after uppercasing, a non-empty birth must match the birth pattern, and weight must be at least 0 |
| Dogs.CreateDog | src/models/dog.ts:5-24 | a dog is stored exactly when no path is violated, otherwise the violated paths are reported; the stored gender is the uppercased input; name, breed, user, thumbnail, birth, weight and info are stored as sent; feeds and likes default to empty; a stored birth is 10 characters and a stored weight is non-negative |
| Dogs.GenderCaseInsensitive | src/models/dog.ts:13-14 | gender is accepted exactly for the six spellings m, M, f, F, n, N |
| Dogs.LowerCaseGenderStoredUpper | src/models/dog.ts:13-14 | a lower-case "m" is stored as M |

## Findings

| source | as written | input that shows it | evidently intended | confidence | as-written member | corrected member |
|---|---|---|---|---|---|---|
| src/routes/places-api.ts:119-123 | the user's scrap entry is looked up with `===`, which compares ObjectId objects; an entry loaded from the database never matches, so the index is -1 and `splice(-1, 1)` removes the last entry, whoever made it | the place holds entries of user A and then user B; A unscraps: B's entry is removed and A's stays | compare by value with `.equals`, as the guards at lines 102 and 116 do, and splice only when an entry is found | high (not executed) | Scraps.UnScrapRemovesAnotherUsersEntry | Scraps.UnScrapByValue |
| src/routes/places-api.ts:54-55 | the query is computed from the request body before the schema fills in the default label, so a place created without a label is stored with label OTHER but a query without it | create with name "A", address "B", contact "02-123-4567", no label: the query is "AB", the stored fields give "AOTHERB" | compute the query from the document as stored, as `update` does at line 91 | medium (not executed) | PlaceHandlers.CreateWithoutLabelIsInconsistent | PlaceHandlers.CreateConsistent |

## Left out

- Hangul decomposition: `Hangul.disassembleToString` comes from a library that is not part of this model. It is a parameter, and no property of it (idempotence included) is assumed.
- `calcDistance` and `pickLocation` (src/lib/helper) are not part of this model. Distances are values returned by a parameter, and the location condition records only the raw coordinates and range.
- Evaluation of filters by MongoDB is not modelled: regular-expression matching, the `'g'` option, the 2dsphere radius query and `sort('-rating')`. The store is a parameter, assumed to return a rating-sorted answer that respects the label and id conditions.
- Search.SearchPlaces: states its error cases for a store that always answers, because a failing store is not modelled. The keyword goes to MongoDB as a `$regex`, so a keyword that is not a valid pattern, such as "(", makes the query fail, and `pickLocation` may throw.
- `JSON.parse` and `ObjectId` construction are parameters that may fail. A failure is reported as MalformedQuery; the exception the code actually throws is not modelled.
- `hasParams` (src/lib/check-params) is not part of this model. It is modelled as "the key was sent", and its failure as BadRequest.
- Persistence is not modelled: `save`, `remove`, `markModified`, the two separate saves of scrap and unScrap, and races between requests.
- The `get` and `delete` handlers are left out: one returns the loaded document and the other removes it, with no logic beyond persistence.
- The `loadPlace`/`loadUser` middleware, the route table, Koa wiring and error-to-status mapping are left out.
- Mongoose type casting is not modelled (for example a number sent as `name`), and neither is a JSON `null` sent in a body. A body key is either a value of the declared type or absent. A body `_id` in create or update is not modelled.
- Text.ToUpper: upper-cases ASCII letters only, because full Unicode case mapping is not modelled. No other character upper-cases to M, F or N, so gender acceptance is unaffected.
- The `likes` array of a place and the `user`, `thumbnail` and `info` paths of a dog carry no validator. They are stored as sent.
- Update copies every sent key, `scraps` included, so an update body can overwrite the scrap list. The model keeps this as the code does.

=== FILE: dog.dfy ===
/** The dog document (src/models/dog.ts) as a plain record, and the validation mongoose applies
    when one is saved. */
module Dogs {
  import opened Results
  import opened Text
  import opened Patterns
  import Places

  /** The three values the `gender` enum admits. */
  datatype Gender = M | F | N

  function GenderCode(g: Gender): string {
    match g
    case M => "M"
    case F => "F"
    case N => "N"
  }

  /** The enum check: which gender, if any, a stored string denotes. */
  function ParseGender(code: string): (g: Option<Gender>)
    ensures g.Some? <==> code == "M" || code == "F" || code == "N"
    ensures g.Some? ==> GenderCode(g.value) == code
  {
    if code == "M" then Some(M)
    else if code == "F" then Some(F)
    else if code == "N" then Some(N)
    else None
  }

  /** A request body for a dog: every key sent or not. */
  datatype DogInput = DogInput(
    user: Option<Places.ObjectId>,
    name: Option<string>,
    thumbnail: Option<string>,
    breed: Option<string>,
    gender: Option<string>,
    birth: Option<string>,
    weight: Option<real>,
    info: Option<string>,
    feeds: Option<seq<Places.ObjectId>>,
    likes: Option<seq<Places.ObjectId>>)

  /** A stored dog. */
  datatype Dog = Dog(
    user: Option<Places.ObjectId>,
    name: string,
    thumbnail: Option<string>,
    breed: string,
    gender: Gender,
    birth: Option<string>,
    weight: Option<real>,
    info: Option<string>,
    feeds: seq<Places.ObjectId>,
    likes: seq<Places.ObjectId>)

  /** The `gender` path after the `uppercase` setter: required, then one of the enum values. */
  predicate GenderAccepted(gender: Option<string>) {
    gender.Some? && ParseGender(ToUpper(gender.value)).Some?
  }

  /** The `match` check on `birth`: an absent or empty value is not tested. */
  predicate BirthAccepted(birth: Option<string>) {
    birth.None? || birth.value == [] || IsBirth(birth.value)
  }

  /** The `min: 0` check on `weight`: an absent value is not tested. */
  predicate WeightAccepted(weight: Option<real>) {
    weight.None? || weight.value >= 0.0
  }

  predicate RequiredAccepted(s: Option<string>) {
    s.Some? && s.value != []
  }

  /** The paths whose validators reject the body. */
  function DogViolations(d: DogInput): (v: set<SchemaPath>)
    ensures NamePath in v <==> !RequiredAccepted(d.name)
    ensures BreedPath in v <==> !RequiredAccepted(d.breed)
    ensures GenderPath in v <==> !GenderAccepted(d.gender)
    ensures BirthPath in v <==> !BirthAccepted(d.birth)
    ensures WeightPath in v <==> !WeightAccepted(d.weight)
    ensures v <= {NamePath, BreedPath, GenderPath, BirthPath, WeightPath}
  {
    (if RequiredAccepted(d.name) then {} else {NamePath})
    + (if RequiredAccepted(d.breed) then {} else {BreedPath})
    + (if GenderAccepted(d.gender) then {} else {GenderPath})
    + (if BirthAccepted(d.birth) then {} else {BirthPath})
    + (if WeightAccepted(d.weight) then {} else {WeightPath})
  }

  /** Saving a new dog: the setter uppercases `gender`, the validators run, and the arrays
      default to empty. */
  function CreateDog(d: DogInput): (r: Result<Dog, ApiError>)
    ensures r.Ok? <==> DogViolations(d) == {}
    ensures r.Err? ==> r.error == Invalid(DogViolations(d))
    ensures r.Ok? ==> GenderCode(r.value.gender) == ToUpper(d.gender.value)
    ensures r.Ok? ==> r.value.name == d.name.value && r.value.breed == d.breed.value
    ensures r.Ok? ==> r.value.user == d.user && r.value.thumbnail == d.thumbnail && r.value.birth == d.birth
                      && r.value.weight == d.weight && r.value.info == d.info
    ensures r.Ok? ==> r.value.feeds == d.feeds.GetOr([]) && r.value.likes == d.likes.GetOr([])
    ensures r.Ok? && d.feeds.None? && d.likes.None? ==> r.value.feeds == [] && r.value.likes == []
    ensures r.Ok? && r.value.birth.Some? && r.value.birth.value != [] ==> |r.value.birth.value| == 10
    ensures r.Ok? && r.value.weight.Some? ==> r.value.weight.value >= 0.0
  {
    if DogViolations(d) != {} then Err(Invalid(DogViolations(d)))
    else
      Ok(Dog(d.user, d.name.value, d.thumbnail, d.breed.value,
             ParseGender(ToUpper(d.gender.value)).value,
             d.birth, d.weight, d.info, d.feeds.GetOr([]), d.likes.GetOr([])))
  }

  /** The gender is case-insensitive: exactly the six one-letter spellings are accepted. */
  lemma GenderCaseInsensitive(g: string)
    ensures GenderAccepted(Some(g)) <==> g in {"m", "M", "f", "F", "n", "N"}
  {
    var u := ToUpper(g);
    if GenderAccepted(Some(g)) {
      assert |g| == 1;
      assert [g[0]] == g;
    }
    if g in {"m", "M", "f", "F", "n", "N"} {
      assert |g| == 1 && [u[0]] == u;
    }
  }

  /** A lower-case "m" is accepted and stored as "M". */
  lemma LowerCaseGenderStoredUpper(d: DogInput)
    requires d.gender == Some("m")
    requires CreateDog(d).Ok?
    ensures CreateDog(d).value.gender == M
  {
    assert ToUpper("m") == "M";
  }
}

=== FILE: normalizer.dfy ===
/** The search text of a place: its text fields joined, stripped of white space, and decomposed
    by the Hangul library. The decomposition is a parameter about which nothing is assumed. */
module Normalizer {
  import opened Results
  import opened Text
  import opened Places

  /** `Hangul.disassembleToString`, uninterpreted. */
  type Disassembler = string -> string

  /** `disassembleKorean`: remove all white space, then decompose. Text that is already free of
      white space reaches the decomposition unchanged, text that is nothing but white space
      decomposes as the empty string, and normalising a second time changes nothing. */
  function DisassembleKorean(d: Disassembler, text: string): (r: string)
    ensures NoWhitespace(text) ==> r == d(text)
    ensures AllWhitespace(text) ==> r == d([])
    ensures r == d(StripWhitespace(StripWhitespace(text)))
  {
    d(StripWhitespace(text))
  }

  /** How `Array.prototype.join` renders one element: `undefined` becomes the empty string. */
  function Joined(part: Option<string>): string {
    part.GetOr([])
  }

  /** `createQuery` on an object with these four keys, each possibly undefined: the
      decomposition of name, label, address and description, each stripped of white space, in
      that order with nothing between them. */
  function CreateQuery(d: Disassembler, name: Option<string>, category: Option<string>,
                       address: Option<string>, description: Option<string>): (r: string)
    ensures r == d(StripWhitespace(Joined(name)) + StripWhitespace(Joined(category))
                   + StripWhitespace(Joined(address)) + StripWhitespace(Joined(description)))
    ensures name.None? && category.None? && address.None? && description.None? ==> r == d([])
  {
    var n, c, a, s := Joined(name), Joined(category), Joined(address), Joined(description);
    StripConcat(n + c + a, s);
    StripConcat(n + c, a);
    StripConcat(n, c);
    DisassembleKorean(d, n + c + a + s)
  }

  /** `createQuery` on a stored place. */
  function PlaceQuery(d: Disassembler, p: Place): string {
    CreateQuery(d, Some(p.name), Some(p.category), Some(p.address), p.description)
  }

  /** The stored `query` agrees with the stored text fields. */
  predicate QueryConsistent(d: Disassembler, p: Place) {
    p.query == PlaceQuery(d, p)
  }

  /** Texts that differ only by inserted white space disassemble to the same string. */
  lemma DisassembleIgnoresWhitespace(d: Disassembler, before: string, w: string, after: string)
    requires AllWhitespace(w)
    ensures DisassembleKorean(d, before + w + after) == DisassembleKorean(d, before + after)
  {
    StripIgnoresInsertedWhitespace(before, w, after);
  }

  /** White space inside a place's name does not change its query. */
  lemma QueryIgnoresWhitespaceInName(d: Disassembler, p: Place, before: string, w: string, after: string)
    requires AllWhitespace(w)
    requires p.name == before + w + after
    ensures PlaceQuery(d, p) == PlaceQuery(d, p.(name := before + after))
  {
    StripIgnoresInsertedWhitespace(before, w, after);
  }

  /** With no separator, the boundary between fields is not recorded: moving text from the end of
      one field to the start of the next leaves the query as it was. */
  lemma QueryForgetsFieldBoundaries(d: Disassembler, x: string, y: string, category: string,
                                    address: string, description: Option<string>)
    ensures CreateQuery(d, Some(x + y), Some(category), Some(address), description)
         == CreateQuery(d, Some(x), Some(y + category), Some(address), description)
  {
    assert (x + y) + category == x + (y + category);
  }
}

=== FILE: patterns.dfy ===
/** The two regular expressions the schemas declare, as hand-written matchers, each proved equal
    to a reference grammar that follows the shape of the regular expression. */
module Patterns {
  import opened Text

  // ----- Contact number: ^(0\d{1,2}-)?\d{3,4}-\d{4}$ -----

  /** `\d{3,4}`: the local exchange. */
  predicate IsExchange(x: string) {
    (|x| == 3 || |x| == 4) && AllDigits(x)
  }

  /** `(0\d{1,2}-)?`: empty, or a zero, one or two digits, and a hyphen. */
  predicate IsAreaPrefix(a: string) {
    a == [] || (3 <= |a| <= 4 && a[0] == '0' && AllDigits(a[1..|a| - 1]) && a[|a| - 1] == '-')
  }

  /** `\d{4}`: the subscriber line. */
  predicate IsLine(l: string) {
    |l| == 4 && AllDigits(l)
  }

  /** How the grammar assembles a contact number from its three parts. */
  function ContactOf(area: string, exchange: string, line: string): string {
    area + exchange + "-" + line
  }

  /** Reference grammar: the strings the contact regular expression describes. */
  ghost predicate ContactLanguage(s: string) {
    exists area, exchange, line {:trigger ContactOf(area, exchange, line)} ::
      s == ContactOf(area, exchange, line) && IsAreaPrefix(area) && IsExchange(exchange) && IsLine(line)
  }

  /** The head of a contact number, everything before the last hyphen: `(0\d{1,2}-)?\d{3,4}`. */
  predicate IsContactHead(h: string) {
    IsExchange(h)
    || (6 <= |h| <= 7 && h[0] == '0' && IsDigit(h[1]) && h[2] == '-' && IsExchange(h[3..]))
    || (7 <= |h| <= 8 && h[0] == '0' && IsDigit(h[1]) && IsDigit(h[2]) && h[3] == '-' && IsExchange(h[4..]))
  }

  /** Hand-written matcher for `^(0\d{1,2}-)?\d{3,4}-\d{4}$`, read from the right. */
  predicate IsContact(s: string) {
    |s| >= 8 && s[|s| - 5] == '-' && IsLine(s[|s| - 4..]) && IsContactHead(s[..|s| - 5])
  }

  lemma ContactFromParts(area: string, exchange: string, line: string)
    requires IsAreaPrefix(area) && IsExchange(exchange) && IsLine(line)
    ensures IsContact(ContactOf(area, exchange, line))
  {
    var s := ContactOf(area, exchange, line);
    assert s[|s| - 4..] == line;
    assert s[..|s| - 5] == area + exchange;
    var h := area + exchange;
    if area != [] {
      assert h[|area|..] == exchange;
      assert area[1..|area| - 1][0] == area[1];
      if |area| == 3 {
        assert h[1] == area[1] && h[2] == '-';
      } else {
        assert area[1..|area| - 1][1] == area[2];
        assert h[1] == area[1] && h[2] == area[2] && h[3] == '-';
      }
    } else {
      assert h == exchange;
    }
  }

  lemma ContactToParts(s: string)
    requires IsContact(s)
    ensures ContactLanguage(s)
  {
    var line := s[|s| - 4..];
    var h := s[..|s| - 5];
    var area, exchange;
    if IsExchange(h) {
      area, exchange := [], h;
    } else if 6 <= |h| <= 7 && h[0] == '0' && IsDigit(h[1]) && h[2] == '-' && IsExchange(h[3..]) {
      area, exchange := h[..3], h[3..];
      assert area[1..|area| - 1] == [h[1]];
    } else {
      area, exchange := h[..4], h[4..];
      assert area[1..|area| - 1] == [h[1], h[2]];
    }
    assert h == area + exchange;
    assert s == ContactOf(area, exchange, line);
    assert IsAreaPrefix(area) && IsExchange(exchange) && IsLine(line);
  }

  /** The hand-written matcher accepts exactly the strings of the regular expression. */
  lemma ContactMatcherCorrect(s: string)
    ensures IsContact(s) <==> ContactLanguage(s)
  {
    if IsContact(s) {
      ContactToParts(s);
    }
    if ContactLanguage(s) {
      var area, exchange, line :| s == ContactOf(area, exchange, line)
        && IsAreaPrefix(area) && IsExchange(exchange) && IsLine(line);
      ContactFromParts(area, exchange, line);
    }
  }

  /** Every accepted contact number is 8 to 13 characters long. */
  lemma ContactLength(s: string)
    requires IsContact(s)
    ensures 8 <= |s| <= 13
  {
  }

  /** A Seoul number with an area code is accepted; a number without the four-digit line is not. */
  lemma ContactExamples()
    ensures IsContact("02-123-4567")
    ensures IsContact("1588-1234")
    ensures !IsContact("123-456")
    ensures !IsContact("12-123-4567")
  {
    var s := "02-123-4567";
    assert s[|s| - 4..] == "4567" && s[..|s| - 5] == "02-123";
    assert "02-123"[3..] == "123";
    var t := "1588-1234";
    assert t[|t| - 4..] == "1234" && t[..|t| - 5] == "1588";
    var u := "12-123-4567";
    assert u[..|u| - 5] == "12-123";
  }

  // ----- Birth date: ^\d{4}.\d{2}.\d{2}$ -----

  /** What `.` matches in a regular expression without the `u` flag: one UTF-16 code unit other
      than a line terminator. A character outside the Basic Multilingual Plane takes two code
      units, so `.` cannot match it whole and the digit that follows cannot match its second half. */
  predicate MatchesDot(c: char) {
    !IsLineTerminator(c) && c as int < 0x1_0000
  }

  /** How the grammar assembles a birth date: year, separator, month, separator, day. */
  function BirthOf(year: string, sep1: char, month: string, sep2: char, day: string): string {
    year + [sep1] + month + [sep2] + day
  }

  /** Reference grammar: the strings the birth regular expression describes; `.` matches one
      code unit other than a line terminator. */
  ghost predicate BirthLanguage(s: string) {
    exists year, sep1, month, sep2, day {:trigger BirthOf(year, sep1, month, sep2, day)} ::
      s == BirthOf(year, sep1, month, sep2, day)
      && |year| == 4 && AllDigits(year) && MatchesDot(sep1)
      && |month| == 2 && AllDigits(month) && MatchesDot(sep2)
      && |day| == 2 && AllDigits(day)
  }

  /** Hand-written matcher for `^\d{4}.\d{2}.\d{2}$`. */
  predicate IsBirth(s: string) {
    |s| == 10
    && AllDigits(s[..4]) && MatchesDot(s[4])
    && AllDigits(s[5..7]) && MatchesDot(s[7])
    && AllDigits(s[8..])
  }

  /** The hand-written matcher accepts exactly the strings of the regular expression. */
  lemma BirthMatcherCorrect(s: string)
    ensures IsBirth(s) <==> BirthLanguage(s)
  {
    if IsBirth(s) {
      assert s == BirthOf(s[..4], s[4], s[5..7], s[7], s[8..]);
    }
    if BirthLanguage(s) {
      var year, sep1, month, sep2, day :| s == BirthOf(year, sep1, month, sep2, day)
        && |year| == 4 && AllDigits(year) && MatchesDot(sep1)
        && |month| == 2 && AllDigits(month) && MatchesDot(sep2)
        && |day| == 2 && AllDigits(day);
      assert s[..4] == year && s[4] == sep1 && s[5..7] == month && s[7] == sep2 && s[8..] == day;
    }
  }

  /** A date with the same separator twice is accepted exactly when that separator is one code
      unit other than a line terminator. */
  lemma BirthSeparators(c: char)
    ensures IsBirth("2018" + [c] + "03" + [c] + "01") <==> MatchesDot(c)
  {
    var s := "2018" + [c] + "03" + [c] + "01";
    assert s[..4] == "2018" && s[4] == c && s[5..7] == "03" && s[7] == c && s[8..] == "01";
  }

  /** Common separators are allowed, an astral one is not, and the digits are not optional. */
  lemma BirthExamples()
    ensures IsBirth("2018.03.01") && IsBirth("2018-03-01") && IsBirth("2018/03/01")
    ensures !IsBirth("2018.3.1") && !IsBirth("2018.03.01.")
    ensures !IsBirth("2018\U{1F600}03\U{1F600}01")
  {
    assert "2018.03.01"[..4] == "2018" && "2018.03.01"[5..7] == "03" && "2018.03.01"[8..] == "01";
    assert "2018-03-01"[..4] == "2018" && "2018-03-01"[5..7] == "03" && "2018-03-01"[8..] == "01";
    assert "2018/03/01"[..4] == "2018" && "2018/03/01"[5..7] == "03" && "2018/03/01"[8..] == "01";
  }
}

=== FILE: place.dfy ===
/** The place document (src/models/place.ts) as a plain record, with the schema's defaults and
    the checks mongoose runs on save as explicit predicates. */
module Places {
  import opened Results
  import opened Patterns

  /** The value of a MongoDB ObjectId. */
  type ObjectId = nat

  /** An ObjectId object held in memory. Two documents loaded separately hold distinct objects
      (`instance`) even for the same `value`: `.equals` compares values, `===` compares objects. */
  datatype IdRef = IdRef(instance: nat, value: ObjectId) {
    predicate Equals(other: IdRef) {
      value == other.value
    }
  }

  /** The GeoJSON point of the 2dsphere index; the coordinates are never computed with here. */
  datatype Point = Point(longitude: real, latitude: real)

  datatype OfficeHour = OfficeHour(default: string, weekend: Option<string>, dayoff: Option<string>)

  /** One bookmark of the place: who made it and when. */
  datatype ScrapEntry = ScrapEntry(user: IdRef, createdAt: int)

  /** A stored place. `description`, `query` and `scraps` are read and written by the places
      controller although the schema file does not declare them. */
  datatype Place = Place(
    id: ObjectId,
    name: string,
    location: Point,
    address: string,
    category: string,   // the `label` path
    rating: real,
    contact: Option<string>,
    thumbnail: Option<string>,
    officeHour: Option<OfficeHour>,
    images: seq<string>,
    likes: seq<ObjectId>,
    description: Option<string>,
    query: string,
    scraps: seq<ScrapEntry>)

  /** A request body: every key of a place, each one sent or not. */
  datatype PlacePatch = PlacePatch(
    name: Option<string>,
    location: Option<Point>,
    address: Option<string>,
    category: Option<string>,   // the `label` key
    rating: Option<real>,
    contact: Option<string>,
    thumbnail: Option<string>,
    officeHour: Option<OfficeHour>,
    images: Option<seq<string>>,
    likes: Option<seq<ObjectId>>,
    description: Option<string>,
    query: Option<string>,
    scraps: Option<seq<ScrapEntry>>)

  const EmptyPatch := PlacePatch(None, None, None, None, None, None, None, None, None, None, None, None, None)

  /** The keys a request body may carry. */
  datatype BodyKey = NameKey | LocationKey | AddressKey | LabelKey | RatingKey | ContactKey
                   | ThumbnailKey | OfficeHourKey | ImagesKey | LikesKey | DescriptionKey
                   | QueryKey | ScrapsKey

  /** The body carries a value under `key`. */
  predicate IsSent(b: PlacePatch, key: BodyKey) {
    match key
    case NameKey => b.name.Some?
    case LocationKey => b.location.Some?
    case AddressKey => b.address.Some?
    case LabelKey => b.category.Some?
    case RatingKey => b.rating.Some?
    case ContactKey => b.contact.Some?
    case ThumbnailKey => b.thumbnail.Some?
    case OfficeHourKey => b.officeHour.Some?
    case ImagesKey => b.images.Some?
    case LikesKey => b.likes.Some?
    case DescriptionKey => b.description.Some?
    case QueryKey => b.query.Some?
    case ScrapsKey => b.scraps.Some?
  }

  /** `hasParams(keys, body)`: every listed key is sent. */
  predicate HasParams(keys: set<BodyKey>, b: PlacePatch) {
    forall key | key in keys :: IsSent(b, key)
  }

  const DefaultLabel := "OTHER"
  const DefaultRating := 0.0
  const MinRating := 0.0
  const MaxRating := 5.0

  /** The labels the TypeScript type of `label` admits. The schema declares only the default, so
      mongoose does not check this on save. */
  predicate IsDeclaredLabel(l: string) {
    l == "CAFE" || l == "SHOP" || l == "HOSPITAL" || l == "OTHER"
  }

  /** Mongoose's `required` check on a string path: a non-empty string. */
  predicate Present(s: string) {
    s != []
  }

  /** Mongoose's `match` check: an absent or empty value is not tested against the pattern. */
  predicate ContactAccepted(contact: Option<string>) {
    contact.None? || contact.value == [] || IsContact(contact.value)
  }

  predicate RatingInBounds(rating: real) {
    MinRating <= rating <= MaxRating
  }

  /** The paths whose validators reject `p`, as collected in a mongoose ValidationError. */
  function Violations(p: Place): (v: set<SchemaPath>)
    ensures NamePath in v <==> !Present(p.name)
    ensures AddressPath in v <==> !Present(p.address)
    ensures RatingPath in v <==> !RatingInBounds(p.rating)
    ensures ContactPath in v <==> !ContactAccepted(p.contact)
    ensures v <= {NamePath, AddressPath, RatingPath, ContactPath}
  {
    (if Present(p.name) then {} else {NamePath})
    + (if Present(p.address) then {} else {AddressPath})
    + (if RatingInBounds(p.rating) then {} else {RatingPath})
    + (if ContactAccepted(p.contact) then {} else {ContactPath})
  }

  /** The document passes every validator of the schema. */
  predicate SchemaValid(p: Place) {
    Violations(p) == {}
  }

  /** A new document as `Place.create` builds it from a body: the sent keys, and the schema's
      defaults for the others (arrays default to empty). */
  function Instantiate(id: ObjectId, body: PlacePatch, query: string): (p: Place)
    requires body.name.Some? && body.location.Some? && body.address.Some?
    ensures p.category == body.category.GetOr(DefaultLabel)
    ensures p.rating == body.rating.GetOr(DefaultRating)
    ensures body.category.None? ==> p.category == DefaultLabel && IsDeclaredLabel(p.category)
    ensures body.rating.None? ==> RatingInBounds(p.rating)
    ensures body.scraps.None? ==> p.scraps == []
    ensures p.id == id && p.query == query
    ensures p.name == body.name.value && p.location == body.location.value && p.address == body.address.value
    ensures p.contact == body.contact && p.thumbnail == body.thumbnail && p.officeHour == body.officeHour
    ensures p.description == body.description
    ensures body.images.Some? ==> p.images == body.images.value
    ensures body.likes.Some? ==> p.likes == body.likes.value
    ensures body.scraps.Some? ==> p.scraps == body.scraps.value
    ensures body.images.None? ==> p.images == []
    ensures body.likes.None? ==> p.likes == []
  {
    Place(
      id,
      body.name.value,
      body.location.value,
      body.address.value,
      body.category.GetOr(DefaultLabel),
      body.rating.GetOr(DefaultRating),
      body.contact,
      body.thumbnail,
      body.officeHour,
      body.images.GetOr([]),
      body.likes.GetOr([]),
      body.description,
      query,
      body.scraps.GetOr([]))
  }
}

=== FILE: place_handlers.dfy ===
/** The `create` and `update` handlers of the places controller (src/routes/places-api.ts). */
module PlaceHandlers {
  import opened Results
  import opened Patterns
  import opened Places
  import opened Normalizer

  /** The keys `create` demands. */
  const RequiredKeys: set<BodyKey> := {NameKey, LocationKey, AddressKey, ContactKey}

  /** `hasParams(['name', 'location', 'address', 'contact'], body)`: holds exactly when those four
      keys carry a value. */
  predicate HasRequiredParams(b: PlacePatch): (ok: bool)
    ensures ok <==> b.name.Some? && b.location.Some? && b.address.Some? && b.contact.Some?
  {
    assert IsSent(b, NameKey) && IsSent(b, LocationKey) && IsSent(b, AddressKey) && IsSent(b, ContactKey)
           ==> HasParams(RequiredKeys, b);
    assert HasParams(RequiredKeys, b) ==> IsSent(b, NameKey) && IsSent(b, LocationKey)
                                          && IsSent(b, AddressKey) && IsSent(b, ContactKey);
    HasParams(RequiredKeys, b)
  }

  /** Saving with validation: the document is stored as it is, or rejected with the failing paths. */
  function Save(p: Place): (r: Result<Place, ApiError>)
    ensures r.Ok? <==> SchemaValid(p)
    ensures r.Ok? ==> r.value == p
    ensures r.Err? ==> r.error.Invalid? && r.error.paths != {} && r.error.paths == Violations(p)
  {
    if SchemaValid(p) then Ok(p) else Err(Invalid(Violations(p)))
  }

  /** `create` as written: the query is computed from the body, before the schema fills in the
      default label. */
  function Create(d: Disassembler, id: ObjectId, body: PlacePatch): (r: Result<Place, ApiError>)
    ensures !HasRequiredParams(body) ==> r == Err(BadRequest)
    ensures r.Ok? ==> HasRequiredParams(body) && SchemaValid(r.value)
    ensures r.Ok? ==> r.value.query == CreateQuery(d, body.name, body.category, body.address, body.description)
    ensures r.Ok? ==> r.value.name == body.name.value && r.value.location == body.location.value
                      && r.value.address == body.address.value && r.value.contact == body.contact
    ensures r.Ok? ==> r.value.category == body.category.GetOr(DefaultLabel)
                      && r.value.rating == body.rating.GetOr(DefaultRating)
    ensures r.Ok? ==> r.value.id == id && r.value.scraps == body.scraps.GetOr([])
    ensures r.Ok? ==> r.value.description == body.description && r.value.thumbnail == body.thumbnail
                      && r.value.officeHour == body.officeHour
    ensures r.Ok? ==> r.value.images == body.images.GetOr([]) && r.value.likes == body.likes.GetOr([])
    ensures HasRequiredParams(body) ==>
              (r.Ok? <==> (Present(body.name.value) && Present(body.address.value)
                           && RatingInBounds(body.rating.GetOr(DefaultRating)) && ContactAccepted(body.contact)))
    ensures HasRequiredParams(body) && r.Err? ==> r.error == Invalid(Violations(Instantiate(id, body, [])))
  {
    if !HasRequiredParams(body) then Err(BadRequest)
    else Save(Instantiate(id, body, CreateQuery(d, body.name, body.category, body.address, body.description)))
  }

  /** When the body names a label, the stored query agrees with the stored fields. */
  lemma CreateWithLabelIsConsistent(d: Disassembler, id: ObjectId, body: PlacePatch)
    requires body.category.Some?
    requires Create(d, id, body).Ok?
    ensures QueryConsistent(d, Create(d, id, body).value)
  {
  }

  /** A body with the four required keys and no label. */
  const UnlabelledBody := EmptyPatch.(name := Some("A"), location := Some(Point(127.0, 37.5)),
                                      address := Some("B"), contact := Some("02-123-4567"))

  /** Without a label, the stored query leaves out the default label the document then holds:
      with a decomposition that leaves Latin text alone, as Hangul decomposition does, "A" at "B"
      is stored with query "AB" although its fields give "AOTHERB". */
  lemma CreateWithoutLabelIsInconsistent(d: Disassembler)
    requires d("AB") == "AB" && d("AOTHERB") == "AOTHERB"
    ensures Create(d, 0, UnlabelledBody).Ok?
    ensures Create(d, 0, UnlabelledBody).value.category == "OTHER"
    ensures Create(d, 0, UnlabelledBody).value.query == "AB"
    ensures !QueryConsistent(d, Create(d, 0, UnlabelledBody).value)
  {
    var body := UnlabelledBody;
    UnlabelledQueries(d);
    UnlabelledBodyIsValid();
    var p := Instantiate(0, body, "AB");
    assert Create(d, 0, body) == Ok(p);
    assert PlaceQuery(d, p) == CreateQuery(d, Some("A"), Some("OTHER"), Some("B"), None);
  }

  lemma UnlabelledQueries(d: Disassembler)
    requires d("AB") == "AB" && d("AOTHERB") == "AOTHERB"
    ensures CreateQuery(d, Some("A"), None, Some("B"), None) == "AB"
    ensures CreateQuery(d, Some("A"), Some("OTHER"), Some("B"), None) == "AOTHERB"
  {
    var none: Option<string> := None;
    var t1 := Joined(Some("A")) + Joined(none) + Joined(Some("B")) + Joined(none);
    var t2 := Joined(Some("A")) + Joined(Some("OTHER")) + Joined(Some("B")) + Joined(none);
    assert t1 == "AB" by {
      assert Joined(none) == [];
    }
    assert t2 == "AOTHERB" by {
      assert Joined(none) == [];
    }
    LatinTextIsKept();
  }

  lemma UnlabelledBodyIsValid()
    ensures SchemaValid(Instantiate(0, UnlabelledBody, "AB"))
  {
    ContactExamples();
  }

  lemma LatinTextIsKept()
    ensures Text.StripWhitespace("AB") == "AB"
    ensures Text.StripWhitespace("AOTHERB") == "AOTHERB"
  {
    assert Text.NoWhitespace("AB");
    assert Text.NoWhitespace("AOTHERB");
  }

  /** `create` as evidently intended: the query is computed from the document as stored, after
      the defaults are applied. */
  function CreateConsistent(d: Disassembler, id: ObjectId, body: PlacePatch): (r: Result<Place, ApiError>)
    ensures r.Ok? ==> QueryConsistent(d, r.value)
    ensures r.Ok? <==> Create(d, id, body).Ok?
    ensures r.Ok? ==> r.value == Create(d, id, body).value.(query := r.value.query)
    ensures r.Err? ==> r == Create(d, id, body)
    ensures body.category.Some? ==> r == Create(d, id, body)
  {
    if !HasRequiredParams(body) then Err(BadRequest)
    else
      var p := Instantiate(id, body, []);
      Save(p.(query := PlaceQuery(d, p)))
  }

  /** The key of `later` where it is sent, otherwise that of `earlier`. */
  function Override<T>(earlier: Option<T>, later: Option<T>): Option<T> {
    if later.Some? then later else earlier
  }

  /** The body `Object.assign({}, first, second)` would give. */
  function Combine(first: PlacePatch, second: PlacePatch): PlacePatch {
    PlacePatch(
      Override(first.name, second.name),
      Override(first.location, second.location),
      Override(first.address, second.address),
      Override(first.category, second.category),
      Override(first.rating, second.rating),
      Override(first.contact, second.contact),
      Override(first.thumbnail, second.thumbnail),
      Override(first.officeHour, second.officeHour),
      Override(first.images, second.images),
      Override(first.likes, second.likes),
      Override(first.description, second.description),
      Override(first.query, second.query),
      Override(first.scraps, second.scraps))
  }

  /** `Object.assign(place, body)`: every sent key is copied onto the document, every other key
      keeps its value, and an empty body changes nothing. */
  function Merge(p: Place, b: PlacePatch): (m: Place)
    ensures m.id == p.id
    ensures b == EmptyPatch ==> m == p
    ensures (b.name.Some? ==> m.name == b.name.value) && (b.name.None? ==> m.name == p.name)
    ensures (b.location.Some? ==> m.location == b.location.value) && (b.location.None? ==> m.location == p.location)
    ensures (b.address.Some? ==> m.address == b.address.value) && (b.address.None? ==> m.address == p.address)
    ensures (b.category.Some? ==> m.category == b.category.value) && (b.category.None? ==> m.category == p.category)
    ensures (b.rating.Some? ==> m.rating == b.rating.value) && (b.rating.None? ==> m.rating == p.rating)
    ensures (b.contact.Some? ==> m.contact == b.contact) && (b.contact.None? ==> m.contact == p.contact)
    ensures (b.thumbnail.Some? ==> m.thumbnail == b.thumbnail) && (b.thumbnail.None? ==> m.thumbnail == p.thumbnail)
    ensures (b.officeHour.Some? ==> m.officeHour == b.officeHour) && (b.officeHour.None? ==> m.officeHour == p.officeHour)
    ensures (b.images.Some? ==> m.images == b.images.value) && (b.images.None? ==> m.images == p.images)
    ensures (b.likes.Some? ==> m.likes == b.likes.value) && (b.likes.None? ==> m.likes == p.likes)
    ensures (b.description.Some? ==> m.description == b.description) && (b.description.None? ==> m.description == p.description)
    ensures (b.query.Some? ==> m.query == b.query.value) && (b.query.None? ==> m.query == p.query)
    ensures (b.scraps.Some? ==> m.scraps == b.scraps.value) && (b.scraps.None? ==> m.scraps == p.scraps)
  {
    Place(
      p.id,
      b.name.GetOr(p.name),
      b.location.GetOr(p.location),
      b.address.GetOr(p.address),
      b.category.GetOr(p.category),
      b.rating.GetOr(p.rating),
      Override(p.contact, b.contact),
      Override(p.thumbnail, b.thumbnail),
      Override(p.officeHour, b.officeHour),
      b.images.GetOr(p.images),
      b.likes.GetOr(p.likes),
      Override(p.description, b.description),
      b.query.GetOr(p.query),
      b.scraps.GetOr(p.scraps))
  }

  /** `update`: merge the body, recompute the query from the merged document, save with
      validation. */
  function Update(d: Disassembler, p: Place, b: PlacePatch): (r: Result<Place, ApiError>)
    ensures r.Ok? ==> QueryConsistent(d, r.value) && SchemaValid(r.value)
    ensures r.Ok? ==> r.value.id == p.id
    ensures r.Ok? ==> (b.name.Some? ==> r.value.name == b.name.value) && (b.name.None? ==> r.value.name == p.name)
    ensures r.Ok? ==> (b.location.Some? ==> r.value.location == b.location.value) && (b.location.None? ==> r.value.location == p.location)
    ensures r.Ok? ==> (b.address.Some? ==> r.value.address == b.address.value) && (b.address.None? ==> r.value.address == p.address)
    ensures r.Ok? ==> (b.category.Some? ==> r.value.category == b.category.value) && (b.category.None? ==> r.value.category == p.category)
    ensures r.Ok? ==> (b.rating.Some? ==> r.value.rating == b.rating.value) && (b.rating.None? ==> r.value.rating == p.rating)
    ensures r.Ok? ==> (b.contact.Some? ==> r.value.contact == b.contact) && (b.contact.None? ==> r.value.contact == p.contact)
    ensures r.Ok? ==> (b.thumbnail.Some? ==> r.value.thumbnail == b.thumbnail) && (b.thumbnail.None? ==> r.value.thumbnail == p.thumbnail)
    ensures r.Ok? ==> (b.officeHour.Some? ==> r.value.officeHour == b.officeHour) && (b.officeHour.None? ==> r.value.officeHour == p.officeHour)
    ensures r.Ok? ==> (b.images.Some? ==> r.value.images == b.images.value) && (b.images.None? ==> r.value.images == p.images)
    ensures r.Ok? ==> (b.likes.Some? ==> r.value.likes == b.likes.value) && (b.likes.None? ==> r.value.likes == p.likes)
    ensures r.Ok? ==> (b.description.Some? ==> r.value.description == b.description) && (b.description.None? ==> r.value.description == p.description)
    ensures r.Ok? ==> (b.scraps.Some? ==> r.value.scraps == b.scraps.value) && (b.scraps.None? ==> r.value.scraps == p.scraps)
    ensures r.Ok? <==> (Present(b.name.GetOr(p.name)) && Present(b.address.GetOr(p.address))
                        && RatingInBounds(b.rating.GetOr(p.rating)) && ContactAccepted(Override(p.contact, b.contact)))
    ensures r.Err? ==> r.error.Invalid? && r.error.paths != {}
    ensures r.Err? ==> r.error == Invalid(Violations(Merge(p, b)))
  {
    var merged := Merge(p, b);
    Save(merged.(query := PlaceQuery(d, merged)))
  }

  /** Two updates in a row are one update with the combined body. */
  lemma UpdateComposes(d: Disassembler, p: Place, first: PlacePatch, second: PlacePatch)
    requires Update(d, p, first).Ok?
    ensures Update(d, Update(d, p, first).value, second) == Update(d, p, Combine(first, second))
  {
    var m1 := Merge(p, first);
    var p1 := m1.(query := PlaceQuery(d, m1));
    assert Merge(p1, second).(query := []) == Merge(p, Combine(first, second)).(query := []);
  }

  /** Sending the same body twice changes nothing the second time. */
  lemma UpdateIdempotent(d: Disassembler, p: Place, b: PlacePatch)
    requires Update(d, p, b).Ok?
    ensures Update(d, Update(d, p, b).value, b) == Update(d, p, b)
  {
    UpdateComposes(d, p, b, b);
    assert Combine(b, b) == b;
  }

  /** An empty body leaves a valid, consistent document exactly as it was. */
  lemma UpdateEmptyBodyIsIdentity(d: Disassembler, p: Place)
    requires SchemaValid(p) && QueryConsistent(d, p)
    ensures Update(d, p, EmptyPatch) == Ok(p)
  {
    assert Merge(p, EmptyPatch) == p;
  }
}

=== FILE: results.dfy ===
/** Failure-carrying datatypes shared by the handlers, and the kinds of error they raise. */
module Results {

  /** A value that may be absent: a request key that was not sent, an optional schema path. */
  datatype Option<+T> = None | Some(value: T) {

    /** The value, or `default` when absent. */
    function GetOr(default: T): T {
      match this
      case Some(v) => v
      case None => default
    }
  }

  /** The outcome of a handler: the new document(s), or the error it throws. */
  datatype Result<+T, +E> = Ok(value: T) | Err(error: E)

  /** The schema paths whose validators can reject a document. */
  datatype SchemaPath = NamePath | AddressPath | RatingPath | ContactPath
                      | BreedPath | GenderPath | BirthPath | WeightPath

  /** The errors the handlers raise, one constructor per kind. */
  datatype ApiError =
    | BadRequest              // a required body key is missing
    | Invalid(paths: set<SchemaPath>) // the schema rejected these paths on save
    | MalformedQuery          // a search parameter could not be parsed
    | Conflict                // the place is already scrapped by the user
    | NotFound                // the user has no scrap record of the place
}

=== FILE: scrap.dfy ===
/** The `scrap` and `unScrap` handlers: the bookmark relation kept twice, as `user.places` and as
    `place.scraps`. */
module Scraps {
  import opened Results
  import opened Places

  /** The part of a user document the handlers read and write. */
  datatype User = User(id: IdRef, places: seq<ObjectId>)

  /** The two documents a scrap request loads, as held in memory. */
  datatype Documents = Documents(user: User, place: Place)

  /** lodash `findIndex`: the first index whose element satisfies `p`, or -1. */
  function FindIndex<T>(s: seq<T>, p: T -> bool): (i: int)
    ensures -1 <= i < |s|
    ensures i >= 0 ==> p(s[i]) && forall j :: 0 <= j < i ==> !p(s[j])
    ensures i == -1 <==> forall j :: 0 <= j < |s| ==> !p(s[j])
  {
    if |s| == 0 then -1
    else if p(s[0]) then 0
    else
      var k := FindIndex(s[1..], p);
      if k == -1 then -1 else k + 1
  }

  /** Where `Array.prototype.splice` starts: a negative start counts back from the end, and the
      result is clamped to the array. */
  function SpliceStart(length: nat, start: int): (k: nat)
    ensures k <= length
    ensures 0 <= start <= length ==> k == start
    ensures start < 0 && length + start >= 0 ==> k == length + start
    ensures start > length ==> k == length
    ensures length + start < 0 ==> k == 0
  {
    if start < 0 then (if length + start < 0 then 0 else length + start)
    else if start > length then length
    else start
  }

  /** The array `s.splice(start, deleteCount)` leaves behind. */
  function Splice<T>(s: seq<T>, start: int, deleteCount: int): (r: seq<T>)
    ensures |r| <= |s|
    ensures multiset(r) <= multiset(s)
    ensures 0 <= start < |s| && deleteCount == 1 ==> r == s[..start] + s[start + 1..]
    ensures start == -1 && deleteCount == 1 && |s| > 0 ==> r == s[..|s| - 1]
    ensures start == -1 && |s| == 0 ==> r == []
    ensures deleteCount <= 0 ==> r == s
  {
    var k := SpliceStart(|s|, start);
    var n := if deleteCount < 0 then 0 else if deleteCount > |s| - k then |s| - k else deleteCount;
    assert s == s[..k] + s[k..k + n] + s[k + n..];
    s[..k] + s[k + n..]
  }

  /** The index of the place among the user's scraps, compared by value (`.equals`). */
  function PlaceIndex(docs: Documents): (i: int)
    ensures -1 <= i < |docs.user.places|
    ensures i == -1 <==> docs.place.id !in docs.user.places
    ensures i >= 0 ==> docs.user.places[i] == docs.place.id && docs.place.id !in docs.user.places[..i]
  {
    var i := FindIndex(docs.user.places, (id: ObjectId) => id == docs.place.id);
    assert i >= 0 ==> forall j :: 0 <= j < i ==> docs.user.places[..i][j] != docs.place.id;
    i
  }

  /** `scrap`: refuse when the user already holds the place; otherwise append the entry to the
      place and the place id to the user. */
  function Scrap(docs: Documents, now: int): (r: Result<Documents, ApiError>)
    ensures r.Err? <==> docs.place.id in docs.user.places
    ensures r.Err? ==> r.error == Conflict
    ensures r.Ok? ==> r.value.place.scraps == docs.place.scraps + [ScrapEntry(docs.user.id, now)]
    ensures r.Ok? ==> r.value.user.places == docs.user.places + [docs.place.id]
    ensures r.Ok? ==> r.value.user.id == docs.user.id
    ensures r.Ok? ==> r.value.place == docs.place.(scraps := r.value.place.scraps)
  {
    if PlaceIndex(docs) != -1 then Err(Conflict)
    else
      Ok(Documents(
        docs.user.(places := docs.user.places + [docs.place.id]),
        docs.place.(scraps := docs.place.scraps + [ScrapEntry(docs.user.id, now)])))
  }

  /** The index of the user's entry in the place's scraps as written: `scrap.user === ctx.user._id`
      compares objects, so an entry loaded from the database never matches. */
  function ScrapIndexByObject(docs: Documents): (i: int)
    ensures -1 <= i < |docs.place.scraps|
    ensures i >= 0 ==> docs.place.scraps[i].user == docs.user.id
    ensures i >= 0 ==> forall j :: 0 <= j < i ==> docs.place.scraps[j].user != docs.user.id
    ensures i == -1 <==> forall e | e in docs.place.scraps :: e.user != docs.user.id
  {
    FindIndex(docs.place.scraps, (e: ScrapEntry) => e.user == docs.user.id)
  }

  /** `unScrap` as written: refuse when the user holds no such place; otherwise splice both lists
      at the indexes found, even when the entry index is -1. */
  function UnScrap(docs: Documents): (r: Result<Documents, ApiError>)
    ensures r.Err? <==> docs.place.id !in docs.user.places
    ensures r.Err? ==> r.error == NotFound
    ensures r.Ok? ==> var i := PlaceIndex(docs);
                      0 <= i && r.value.user.places == docs.user.places[..i] + docs.user.places[i + 1..]
    ensures r.Ok? && ScrapIndexByObject(docs) == -1 ==>
              r.value.place.scraps == (if |docs.place.scraps| == 0 then [] else docs.place.scraps[..|docs.place.scraps| - 1])
    ensures r.Ok? && ScrapIndexByObject(docs) >= 0 ==>
              var k := ScrapIndexByObject(docs);
              r.value.place.scraps == docs.place.scraps[..k] + docs.place.scraps[k + 1..]
    ensures r.Ok? ==> r.value.user.id == docs.user.id
    ensures r.Ok? ==> r.value.place == docs.place.(scraps := r.value.place.scraps)
  {
    var placeIndex := PlaceIndex(docs);
    if !(placeIndex > -1) then Err(NotFound)
    else
      var scrapIndex := ScrapIndexByObject(docs);
      Ok(Documents(
        docs.user.(places := Splice(docs.user.places, placeIndex, 1)),
        docs.place.(scraps := Splice(docs.place.scraps, scrapIndex, 1))))
  }

  // ----- The relation's invariants -----

  /** Every element of `s` occurs once. */
  predicate NoDuplicates<T(==)>(s: seq<T>) {
    forall i, j :: 0 <= i < j < |s| ==> s[i] != s[j]
  }

  /** The number of entries of `scraps` made by the user with id value `u`. */
  function EntriesOf(scraps: seq<ScrapEntry>, u: ObjectId): nat {
    if |scraps| == 0 then 0
    else (if scraps[0].user.value == u then 1 else 0) + EntriesOf(scraps[1..], u)
  }

  /** The entries of `scraps` made by users other than `u`, in order. */
  function OthersOf(scraps: seq<ScrapEntry>, u: ObjectId): seq<ScrapEntry> {
    if |scraps| == 0 then []
    else (if scraps[0].user.value == u then [] else [scraps[0]]) + OthersOf(scraps[1..], u)
  }

  lemma {:induction false} EntriesOfConcat(a: seq<ScrapEntry>, b: seq<ScrapEntry>, u: ObjectId)
    ensures EntriesOf(a + b, u) == EntriesOf(a, u) + EntriesOf(b, u)
    ensures OthersOf(a + b, u) == OthersOf(a, u) + OthersOf(b, u)
  {
    if |a| == 0 {
      assert a + b == b;
    } else {
      assert (a + b)[1..] == a[1..] + b;
      EntriesOfConcat(a[1..], b, u);
    }
  }

  /** Removing the entry at `k` removes one entry of its user and leaves the others' in order. */
  lemma {:induction false} RemoveEntry(scraps: seq<ScrapEntry>, k: nat, u: ObjectId)
    requires k < |scraps|
    ensures EntriesOf(scraps[..k] + scraps[k + 1..], u)
         == EntriesOf(scraps, u) - (if scraps[k].user.value == u then 1 else 0)
    ensures scraps[k].user.value == u ==> OthersOf(scraps[..k] + scraps[k + 1..], u) == OthersOf(scraps, u)
  {
    var a, x, b := scraps[..k], [scraps[k]], scraps[k + 1..];
    assert scraps == a + (x + b);
    EntriesOfConcat(a, x + b, u);
    EntriesOfConcat(x, b, u);
    EntriesOfConcat(a, b, u);
    assert x[1..] == [];
  }

  /** Removing the element at `i` from a list without duplicates leaves a list without
      duplicates that no longer holds that element. */
  lemma RemoveAtKeepsUnique<T>(s: seq<T>, i: nat)
    requires NoDuplicates(s)
    requires i < |s|
    ensures NoDuplicates(s[..i] + s[i + 1..])
    ensures s[i] !in s[..i] + s[i + 1..]
  {
    var r := s[..i] + s[i + 1..];
    assert forall j :: 0 <= j < |r| ==> r[j] == s[if j < i then j else j + 1];
  }

  /** The two views of the bookmark between this user and this place agree: the user lists the
      place at most once, and the place holds one entry of the user exactly when the user lists
      the place. */
  predicate Consistent(docs: Documents) {
    NoDuplicates(docs.user.places)
    && EntriesOf(docs.place.scraps, docs.user.id.value)
       == (if docs.place.id in docs.user.places then 1 else 0)
  }

  /** A successful scrap keeps the user's list free of duplicates. */
  lemma ScrapKeepsPlacesUnique(docs: Documents, now: int)
    requires NoDuplicates(docs.user.places)
    requires Scrap(docs, now).Ok?
    ensures NoDuplicates(Scrap(docs, now).value.user.places)
  {
    var s := Scrap(docs, now).value.user.places;
    forall i, j | 0 <= i < j < |s|
      ensures s[i] != s[j]
    {
      if j == |s| - 1 {
        assert s[i] == docs.user.places[i];
      }
    }
  }

  /** A successful scrap keeps the two views in agreement. */
  lemma ScrapKeepsConsistent(docs: Documents, now: int)
    requires Consistent(docs)
    requires Scrap(docs, now).Ok?
    ensures Consistent(Scrap(docs, now).value)
  {
    ScrapKeepsPlacesUnique(docs, now);
    EntriesOfConcat(docs.place.scraps, [ScrapEntry(docs.user.id, now)], docs.user.id.value);
  }

  /** A second scrap of the same place is refused and changes nothing. */
  lemma ScrapTwiceConflicts(docs: Documents, now: int, later: int)
    requires Scrap(docs, now).Ok?
    ensures Scrap(Scrap(docs, now).value, later) == Err(Conflict)
  {
    var after := Scrap(docs, now).value;
    assert after.user.places[|docs.user.places|] == docs.place.id;
  }

  /** A successful unScrap of a list without duplicates leaves the place out of it. */
  lemma UnScrapRemovesPlace(docs: Documents)
    requires NoDuplicates(docs.user.places)
    requires UnScrap(docs).Ok?
    ensures NoDuplicates(UnScrap(docs).value.user.places)
    ensures docs.place.id !in UnScrap(docs).value.user.places
  {
    var s, i := docs.user.places, PlaceIndex(docs);
    var r := UnScrap(docs).value.user.places;
    assert 0 <= i && s[i] == docs.place.id;
    assert r == s[..i] + s[i + 1..];
    RemoveAtKeepsUnique(s, i);
  }

  /** Appending a place not yet listed puts its first occurrence at the end. */
  lemma PlaceIndexOfAppended(docs: Documents)
    requires |docs.user.places| > 0
    requires docs.user.places[|docs.user.places| - 1] == docs.place.id
    requires docs.place.id !in docs.user.places[..|docs.user.places| - 1]
    ensures PlaceIndex(docs) == |docs.user.places| - 1
    ensures Splice(docs.user.places, PlaceIndex(docs), 1) == docs.user.places[..|docs.user.places| - 1]
  {
  }

  /** When only the appended entry can be the user's own id object, splicing at the object index
      removes the appended entry. */
  lemma ObjectIndexOfAppended(docs: Documents)
    requires |docs.place.scraps| > 0
    requires forall e | e in docs.place.scraps[..|docs.place.scraps| - 1] :: e.user != docs.user.id
    ensures Splice(docs.place.scraps, ScrapIndexByObject(docs), 1)
            == docs.place.scraps[..|docs.place.scraps| - 1]
  {
  }

  /** Scrap followed by unScrap restores both lists. `stored` is the user id the new entry holds
      when unScrap reads it: the very same object, or an equal one loaded later. No earlier entry is the request's own
      user-id object, because the place document was loaded separately. */
  lemma ScrapThenUnScrapRestores(docs: Documents, now: int, stored: IdRef)
    requires docs.place.id !in docs.user.places
    requires forall e | e in docs.place.scraps :: e.user != docs.user.id
    requires stored.Equals(docs.user.id)
    ensures var after := Scrap(docs, now).value;
            UnScrap(after.(place := after.place.(scraps := docs.place.scraps + [ScrapEntry(stored, now)])))
            == Ok(docs)
  {
    var after := Scrap(docs, now).value;
    var olds := docs.place.scraps;
    var reread := after.(place := after.place.(scraps := olds + [ScrapEntry(stored, now)]));
    var oldp := docs.user.places;
    assert reread.user.places == oldp + [docs.place.id];
    assert reread.user.places[..|oldp|] == oldp;
    PlaceIndexOfAppended(reread);
    assert reread.place.scraps[..|olds|] == olds;
    ObjectIndexOfAppended(reread);
    var r := UnScrap(reread).value;
    assert r.user == docs.user;
    assert r.place == docs.place;
  }

  /** Finding: unScrap as written removes the last entry whoever made it. User A (value 1) and
      then user B (value 2) scrapped the place; A unscraps in a later request, where every id
      is a freshly loaded object: B's entry is removed and A's stays. */
  lemma UnScrapRemovesAnotherUsersEntry()
    ensures var a := ScrapEntry(IdRef(10, 1), 100);
            var b := ScrapEntry(IdRef(11, 2), 200);
            var place := Place(7, "Cafe", Point(127.0, 37.5), "Seoul", "CAFE", 0.0, None, None, None,
                               [], [], None, [], [a, b]);
            var docs := Documents(User(IdRef(12, 1), [7]), place);
            && Consistent(docs)
            && UnScrap(docs).Ok?
            && UnScrap(docs).value.place.scraps == [a]
            && !Consistent(UnScrap(docs).value)
  {
    var a := ScrapEntry(IdRef(10, 1), 100);
    var b := ScrapEntry(IdRef(11, 2), 200);
    var place := Place(7, "Cafe", Point(127.0, 37.5), "Seoul", "CAFE", 0.0, None, None, None,
                       [], [], None, [], [a, b]);
    var docs := Documents(User(IdRef(12, 1), [7]), place);
    assert [a, b][1..] == [b] && [b][1..] == [] && [a][1..] == [];
    assert EntriesOf([b], 1) == 0;
    assert EntriesOf([a, b], 1) == 1;
    assert ScrapIndexByObject(docs) == -1;
    assert UnScrap(docs).value.place.scraps == [a];
    assert UnScrap(docs).value.user.places == [];
    assert EntriesOf([a], 1) == 1;
  }

  /** The user's entry in the place's scraps compared by value, as the guards compare. */
  function ScrapIndexByValue(docs: Documents): (i: int)
    ensures -1 <= i < |docs.place.scraps|
    ensures i >= 0 ==> docs.place.scraps[i].user.Equals(docs.user.id)
    ensures i == -1 <==> EntriesOf(docs.place.scraps, docs.user.id.value) == 0
  {
    var i := FindIndex(docs.place.scraps, (e: ScrapEntry) => e.user.Equals(docs.user.id));
    NoEntryMeansNone(docs.place.scraps, docs.user.id);
    i
  }

  lemma {:induction false} NoEntryMeansNone(scraps: seq<ScrapEntry>, u: IdRef)
    ensures EntriesOf(scraps, u.value) == 0 <==> forall j :: 0 <= j < |scraps| ==> !scraps[j].user.Equals(u)
  {
    if |scraps| > 0 {
      NoEntryMeansNone(scraps[1..], u);
      assert forall j :: 1 <= j < |scraps| ==> scraps[j] == scraps[1..][j - 1];
    }
  }

  /** `unScrap` as evidently intended: the entry is found by value, and the place's scraps are
      spliced only when it is found. */
  function UnScrapByValue(docs: Documents): (r: Result<Documents, ApiError>)
    ensures r.Err? <==> docs.place.id !in docs.user.places
    ensures r.Err? ==> r.error == NotFound
    ensures r.Ok? ==> r.value.user == UnScrap(docs).value.user
    ensures r.Ok? ==> OthersOf(r.value.place.scraps, docs.user.id.value) == OthersOf(docs.place.scraps, docs.user.id.value)
    ensures r.Ok? ==> r.value.place == docs.place.(scraps := r.value.place.scraps)
    ensures r.Ok? && EntriesOf(docs.place.scraps, docs.user.id.value) > 0 ==>
              EntriesOf(r.value.place.scraps, docs.user.id.value) == EntriesOf(docs.place.scraps, docs.user.id.value) - 1
    ensures r.Ok? && EntriesOf(docs.place.scraps, docs.user.id.value) == 0 ==> r.value.place.scraps == docs.place.scraps
  {
    var placeIndex := PlaceIndex(docs);
    if !(placeIndex > -1) then Err(NotFound)
    else
      var user := docs.user.(places := Splice(docs.user.places, placeIndex, 1));
      var scrapIndex := ScrapIndexByValue(docs);
      if scrapIndex == -1 then Ok(Documents(user, docs.place))
      else
        RemoveEntry(docs.place.scraps, scrapIndex, docs.user.id.value);
        Ok(Documents(user, docs.place.(scraps := Splice(docs.place.scraps, scrapIndex, 1))))
  }

  /** The corrected unScrap keeps the two views in agreement. */
  lemma UnScrapByValueKeepsConsistent(docs: Documents)
    requires Consistent(docs)
    requires UnScrapByValue(docs).Ok?
    ensures Consistent(UnScrapByValue(docs).value)
  {
    UnScrapRemovesPlace(docs);
  }

  /** When the user had no entry before, the value index finds the appended one. */
  lemma ValueIndexOfAppended(docs: Documents)
    requires |docs.place.scraps| > 0
    requires docs.place.scraps[|docs.place.scraps| - 1].user.Equals(docs.user.id)
    requires EntriesOf(docs.place.scraps[..|docs.place.scraps| - 1], docs.user.id.value) == 0
    ensures ScrapIndexByValue(docs) == |docs.place.scraps| - 1
  {
    var n := |docs.place.scraps| - 1;
    NoEntryMeansNone(docs.place.scraps[..n], docs.user.id);
  }

  /** Scrap followed by the corrected unScrap restores both lists, whatever objects hold the ids. */
  lemma ScrapThenUnScrapByValueRestores(docs: Documents, now: int)
    requires Consistent(docs)
    requires docs.place.id !in docs.user.places
    ensures UnScrapByValue(Scrap(docs, now).value) == Ok(docs)
  {
    var after := Scrap(docs, now).value;
    var olds := docs.place.scraps;
    var oldp := docs.user.places;
    assert after.user.places[..|oldp|] == oldp;
    PlaceIndexOfAppended(after);
    assert after.place.scraps[..|olds|] == olds;
    ValueIndexOfAppended(after);
    var r := UnScrapByValue(after).value;
    assert r.user == docs.user;
    assert r.place == docs.place;
  }
}

=== FILE: search.dfy ===
/** The `search` handler of the places controller: the filter built from the query string, and
    the store's answer, optionally annotated with a distance. */
module Search {
  import opened Results
  import opened Places
  import opened Normalizer

  /** The query-string parameters, each sent or not; `category` is the `label` parameter. */
  datatype SearchRequest = SearchRequest(
    keyword: Option<string>,
    category: Option<string>,
    coordinates: Option<string>,
    range: Option<string>,
    places: Option<string>)

  /** JavaScript truthiness of a query-string value: sent, and not the empty string. */
  predicate Given(v: Option<string>) {
    v.Some? && v.value != []
  }

  /** The `location` condition `pickLocation` builds from the raw coordinates and range; its
      geometry is left to the store. */
  datatype Near = Near(coordinates: string, range: Option<string>)

  /** The filter handed to the store: one optional condition per key. */
  datatype Filter = Filter(
    category: Option<string>,        // `label`: exact match
    queryPattern: Option<string>,    // `query`: `$regex` on the decomposed keyword
    location: Option<Near>,          // `location`: within range of the coordinates
    ids: Option<seq<ObjectId>>)      // `_id`: `$in` these ids

  const EmptyFilter := Filter(None, None, None, None)

  /** The parsing the handler relies on, each of which may throw: `JSON.parse` of the `places`
      parameter into a list of strings, `mongoose.Types.ObjectId` on one string, and `JSON.parse`
      of the `coordinates` parameter. */
  datatype Parsers = Parsers(
    parseIdList: string -> Option<seq<string>>,
    objectId: string -> Option<ObjectId>,
    parseCoordinates: string -> Option<seq<real>>)

  /** `places.map(place => mongoose.Types.ObjectId(place))`: every string converted, in order,
      or a failure if any one of them is not an ObjectId. */
  function ToObjectIds(objectId: string -> Option<ObjectId>, ss: seq<string>): (r: Option<seq<ObjectId>>)
    ensures r.Some? <==> forall i :: 0 <= i < |ss| ==> objectId(ss[i]).Some?
    ensures r.Some? ==> |r.value| == |ss|
    ensures r.Some? ==> forall i :: 0 <= i < |ss| ==> r.value[i] == objectId(ss[i]).value
  {
    if |ss| == 0 then Some([])
    else match objectId(ss[0])
      case None => None
      case Some(id) =>
        match ToObjectIds(objectId, ss[1..])
        case None => None
        case Some(rest) => Some([id] + rest)
  }

  /** The ids of the `places` parameter, if it parses. */
  function ParseIds(parsers: Parsers, text: string): Option<seq<ObjectId>> {
    match parsers.parseIdList(text)
    case None => None
    case Some(ss) => ToObjectIds(parsers.objectId, ss)
  }

  /** The filter of `search`: a condition exactly for each parameter given. */
  function BuildFilter(d: Disassembler, parsers: Parsers, q: SearchRequest): (r: Result<Filter, ApiError>)
    ensures r.Err? <==> Given(q.places) && ParseIds(parsers, q.places.value).None?
    ensures r.Err? ==> r.error == MalformedQuery
    ensures r.Ok? ==> (r.value.category.Some? <==> Given(q.category))
    ensures r.Ok? && Given(q.category) ==> r.value.category.value == q.category.value
    ensures r.Ok? ==> (r.value.queryPattern.Some? <==> Given(q.keyword))
    ensures r.Ok? && Given(q.keyword) ==> r.value.queryPattern.value == DisassembleKorean(d, q.keyword.value)
    ensures r.Ok? ==> (r.value.location.Some? <==> Given(q.coordinates))
    ensures r.Ok? && Given(q.coordinates) ==> r.value.location.value == Near(q.coordinates.value, q.range)
    ensures r.Ok? ==> (r.value.ids.Some? <==> Given(q.places))
    ensures r.Ok? && Given(q.places) ==>
              var strings := parsers.parseIdList(q.places.value).value;
              |r.value.ids.value| == |strings|
              && forall i :: 0 <= i < |strings| ==> r.value.ids.value[i] == parsers.objectId(strings[i]).value
    ensures (!Given(q.category) && !Given(q.keyword) && !Given(q.coordinates) && !Given(q.places))
            ==> r == Ok(EmptyFilter)
  {
    var category := if Given(q.category) then q.category else None;
    var pattern := if Given(q.keyword) then Some(DisassembleKorean(d, q.keyword.value)) else None;
    var location := if Given(q.coordinates) then Some(Near(q.coordinates.value, q.range)) else None;
    if !Given(q.places) then
      Ok(Filter(category, pattern, location, None))
    else match ParseIds(parsers, q.places.value)
      case None => Err(MalformedQuery)
      case Some(ids) => Ok(Filter(category, pattern, location, Some(ids)))
  }

  /** Non-increasing rating: the order of `sort('-rating')`. */
  predicate SortedByRating(ps: seq<Place>) {
    forall i, j :: 0 <= i < j < |ps| ==> ps[i].rating >= ps[j].rating
  }

  /** The conditions of the filter whose meaning is plain equality; the regular expression and
      the radius are evaluated by the store and not modelled. */
  predicate Admits(f: Filter, p: Place) {
    (f.category.Some? ==> p.category == f.category.value)
    && (f.ids.Some? ==> p.id in f.ids.value)
  }

  /** What is assumed of `Place.find(filter).sort('-rating')`: its answers are sorted by rating
      and satisfy the equality conditions of the filter. */
  ghost predicate StoreContract(find: Filter -> seq<Place>) {
    forall f :: SortedByRating(find(f)) && forall p | p in find(f) :: Admits(f, p)
  }

  /** A result of a search with coordinates: the place's fields and its distance in km. */
  datatype PlaceWithDistance = PlaceWithDistance(place: Place, distance: real)

  datatype SearchResult = Plain(places: seq<Place>) | WithDistance(annotated: seq<PlaceWithDistance>)

  /** The places of a result, in order, without their distances. */
  function ResultPlaces(r: SearchResult): seq<Place> {
    match r
    case Plain(ps) => ps
    case WithDistance(ws) => seq(|ws|, i requires 0 <= i < |ws| => ws[i].place)
  }

  /** `places.map(place => ({ ...place, distance: calcDistance(coordinates, ...) }))`. */
  function AnnotateDistances(ps: seq<Place>, coordinates: seq<real>,
                             distance: (seq<real>, Point) -> real): (ws: seq<PlaceWithDistance>)
    ensures |ws| == |ps|
    ensures forall i :: 0 <= i < |ps| ==>
              ws[i].place == ps[i] && ws[i].distance == distance(coordinates, ps[i].location)
  {
    seq(|ps|, i requires 0 <= i < |ps| => PlaceWithDistance(ps[i], distance(coordinates, ps[i].location)))
  }

  /** `search`: query the store with the filter; with coordinates, annotate each answer with its
      distance, keeping the store's order. */
  function SearchPlaces(d: Disassembler, parsers: Parsers, find: Filter -> seq<Place>,
                        distance: (seq<real>, Point) -> real, q: SearchRequest): (r: Result<SearchResult, ApiError>)
    requires StoreContract(find)
    ensures r.Err? ==> r.error == MalformedQuery
    ensures r.Err? <==> BuildFilter(d, parsers, q).Err?
                        || (Given(q.coordinates) && parsers.parseCoordinates(q.coordinates.value).None?)
    ensures r.Ok? ==> ResultPlaces(r.value) == find(BuildFilter(d, parsers, q).value)
    ensures r.Ok? ==> SortedByRating(ResultPlaces(r.value))
    ensures r.Ok? ==> (r.value.WithDistance? <==> Given(q.coordinates))
    ensures r.Ok? && r.value.WithDistance? ==>
              var coordinates := parsers.parseCoordinates(q.coordinates.value).value;
              forall i :: 0 <= i < |r.value.annotated| ==>
                r.value.annotated[i].distance == distance(coordinates, r.value.annotated[i].place.location)
    ensures r.Ok? && Given(q.category) ==>
              forall p | p in ResultPlaces(r.value) :: p.category == q.category.value
    ensures r.Ok? && Given(q.places) ==>
              forall p | p in ResultPlaces(r.value) :: p.id in ParseIds(parsers, q.places.value).value
  {
    match BuildFilter(d, parsers, q)
    case Err(e) => Err(e)
    case Ok(filter) =>
      var found := find(filter);
      assert SortedByRating(found) && forall p | p in found :: Admits(filter, p);
      if !Given(q.coordinates) then Ok(Plain(found))
      else match parsers.parseCoordinates(q.coordinates.value)
        case None => Err(MalformedQuery)
        case Some(coordinates) =>
          var ws := AnnotateDistances(found, coordinates, distance);
          assert ResultPlaces(WithDistance(ws)) == found;
          Ok(WithDistance(ws))
  }

  /** A search with only a label returns only places with that label. */
  lemma LabelSearchOnlyReturnsLabel(d: Disassembler, parsers: Parsers, find: Filter -> seq<Place>,
                                    distance: (seq<real>, Point) -> real, category: string)
    requires StoreContract(find)
    requires category != []
    ensures var r := SearchPlaces(d, parsers, find, distance, SearchRequest(None, Some(category), None, None, None));
            r.Ok? && r.value.Plain?
            && r.value.places == find(Filter(Some(category), None, None, None))
            && forall p | p in r.value.places :: p.category == category
  {
  }
}

=== FILE: text.dfy ===
/** Character classes of JavaScript regular expressions and the string helpers built on them. */
module Text {

  /** The characters matched by `\s` in a JavaScript regular expression:
      ECMAScript white space and line terminators. */
  predicate IsWhitespace(c: char) {
    var n := c as int;
    n == 0x09 || n == 0x0A || n == 0x0B || n == 0x0C || n == 0x0D || n == 0x20
    || n == 0xA0 || n == 0x1680 || (0x2000 <= n <= 0x200A) || n == 0x2028
    || n == 0x2029 || n == 0x202F || n == 0x205F || n == 0x3000 || n == 0xFEFF
  }

  /** The characters `.` refuses to match in a JavaScript regular expression without the `s` flag. */
  predicate IsLineTerminator(c: char) {
    c == '\n' || c == '\r' || c as int == 0x2028 || c as int == 0x2029
  }

  /** `\d` in a JavaScript regular expression without the `u` flag. */
  predicate IsDigit(c: char) {
    '0' <= c <= '9'
  }

  predicate AllDigits(s: string) {
    forall i :: 0 <= i < |s| ==> IsDigit(s[i])
  }

  predicate NoWhitespace(s: string) {
    forall i :: 0 <= i < |s| ==> !IsWhitespace(s[i])
  }

  predicate AllWhitespace(s: string) {
    forall i :: 0 <= i < |s| ==> IsWhitespace(s[i])
  }

  /** `s.replace(/\s/g, '')`: the non-white-space characters of `s`, in order. */
  function StripWhitespace(s: string): (r: string)
    ensures NoWhitespace(r)
    ensures |r| <= |s|
    ensures AllWhitespace(s) ==> r == []
    ensures NoWhitespace(s) ==> r == s
  {
    if |s| == 0 then []
    else if IsWhitespace(s[0]) then StripWhitespace(s[1..])
    else [s[0]] + StripWhitespace(s[1..])
  }

  /** Stripping distributes over concatenation. */
  lemma {:induction false} StripConcat(a: string, b: string)
    ensures StripWhitespace(a + b) == StripWhitespace(a) + StripWhitespace(b)
  {
    if |a| == 0 {
      assert a + b == b;
    } else {
      assert (a + b)[0] == a[0];
      assert (a + b)[1..] == a[1..] + b;
      StripConcat(a[1..], b);
    }
  }

  /** Inserting white space anywhere does not change the stripped text. */
  lemma StripIgnoresInsertedWhitespace(a: string, w: string, b: string)
    requires AllWhitespace(w)
    ensures StripWhitespace(a + w + b) == StripWhitespace(a + b)
  {
    StripConcat(a + w, b);
    StripConcat(a, w);
    StripConcat(a, b);
  }

  /** `String.prototype.toUpperCase` on one character, restricted to ASCII letters. */
  function UpperChar(c: char): char {
    if 'a' <= c <= 'z' then (c as int - 32) as char else c
  }

  /** `s.toUpperCase()` for ASCII letters; other characters are left as they are. */
  function ToUpper(s: string): (r: string)
    ensures |r| == |s|
    ensures forall i :: 0 <= i < |s| ==> r[i] == UpperChar(s[i])
  {
    if |s| == 0 then [] else [UpperChar(s[0])] + ToUpper(s[1..])
  }
}
